=== FILE: README.md ===
# OurGroceries client: session and command protocol

This project models, in Dafny, the protocol core of `OurGroceriesClient`, a C#
client for the OurGroceries web service (which has no public API). The client
signs in through the HTML sign-in form and scrapes three identifiers from the
"your lists" page: the team id, the category-list id and the master-list id.
It then sends every operation as a JSON command envelope to one endpoint, and
logs in on demand first when it has no session key.

The network is replaced by what it would deliver (`Sessions.Network`):
- the values of the cookies the jar holds for the service after sign-in;
- two bodies of the "your lists" page, since the client fetches it once for the
  team and category step and again for the master-list step;
- the body of the command reply;
- a JSON parser, a function that yields `None` for a text that is not JSON.

Everything else is pure:
- the three regexes are one scanner for patterns of the form `open C* close`
  (`Patterns`);
- login is a function from a session and the network to the session left behind,
  the exception that escaped (if any) and the requests sent (`Sessions.Login`);
- `PostAsync` is `Dispatcher.Dispatch`;
- each public `*Async` operation is a guard plus a command name and a parameter
  map (`Operations.Prepare`, `Operations.Invoke`).

Modules:
- `Wrappers`: `Option` (a C# null) and `Result` (a value or an exception).
- `Failures`: the exceptions that escape, with the client's own messages.
- `JsonValue`: JSON values, plus `TryGetProperty` and `GetString` as the client
  uses them.
- `Patterns`: the regex semantics. `MatchesAt` says where a pattern matches.
  `Search` returns the leftmost start and, at that start, the longest star.
  That is the match .NET's backtracking engine reports for a single greedy star.
- `Extractors`: the three patterns, the three extractors, and the choice of the
  `CATEGORY` entry in the static metalist.
- `Commands`: the command constants and their wire names.
- `Sessions`: the session fields, the three login steps and `LoginAsync`.
- `Dispatcher`: the login trigger, the envelope and `PostAsync`.
- `Operations`: the public operations, their guards and their payloads.

## Behaviour worth noting

The model keeps each of these behaviours of the code as written:
- **No rollback.** A failed login does not leave the session empty. The
  session key is stored first. A later failure at the team-id, category or
  master-list step leaves the key stored. The team id is stored before the
  category is looked for, so a failure at the category or the master-list step
  also leaves the team id. The next dispatch then skips login.
- **Guards run before the login trigger.** On a newly constructed client, every
  operation that checks the category, master-list or team id throws
  `InvalidOperationException` without logging in.
- **An empty metalist is fatal.** The category id is optional only when the
  `g_staticMetalist = [...];` assignment is absent. When it is present but has no
  `CATEGORY` entry, `FirstOrDefault` returns the default `JsonElement`. The
  following `TryGetProperty` then throws, so the login fails. The `?.` and
  `== true` in that line suggest the authors expected a null instead.
- **Empty team id.** A team id of `""` passes the team guards, which test only
  for null. `PostAsync` then adds no `teamId` of its own (API.cs:537), so only the
  operations that pass `teamId` themselves send it, as `""`.
- **Constructor.** The constructor rejects null credentials but not empty ones.
  It is not modelled.

## Model

| member | source | states |
|---|---|---|
| Patterns.Search | OurGroceries.API/API.cs:128-130 | the match reported is at the leftmost start where the pattern matches at all, and at that start it has the longest star that still lets the closing literal follow; no match exists from `from` on when it reports none |
| Patterns.LongestAt | OurGroceries.API/API.cs:128-130 | at a fixed start the greedy star backtracks to the largest end at which the closing literal follows, and it fails exactly when no end works |
| Patterns.Capture | OurGroceries.API/API.cs:128-130 | the group text is absent exactly when the pattern matches nowhere, and otherwise it is cut from the leftmost-longest match |
| Patterns.CaptureParts | OurGroceries.API/API.cs:128-130 | a capture is the kept tail of the opening literal, then only characters of the starred class, then the kept head of the closing literal |
| Patterns.CaptureOfWholeText | OurGroceries.API/API.cs:128-130 | a match from the first to the last character is the one reported, even if it contains shorter matches |
| Extractors.TeamId | OurGroceries.API/API.cs:128 | there is no team id exactly when the team-id pattern matches nowhere; otherwise it is the text between `g_teamId = "` and `";` of the leftmost, then longest, match |
| Extractors.MetalistText | OurGroceries.API/API.cs:129 | there is no metalist text exactly when the metalist pattern matches nowhere; otherwise it is the bracketed text after `g_staticMetalist = ` of the leftmost, then longest, match |
| Extractors.MasterListId | OurGroceries.API/API.cs:130 | there is no master-list id exactly when the master-list pattern matches nowhere; otherwise it is the text after `/your-lists/list/` up to the closing quote of the leftmost, then longest, match |
| Extractors.TeamIdShape | OurGroceries.API/API.cs:128 | a team id never contains a line feed; there is none exactly when no `g_teamId = "` is followed by `";` on its own line |
| Extractors.TeamIdOfAssignment | OurGroceries.API/API.cs:128 | `g_teamId = "` + t + `";` yields t for every t without a line feed, even one that itself contains `";`, because the star is greedy |
| Extractors.TeamIdExamples | OurGroceries.API/API.cs:128 | `g_teamId = "T123";` yields `T123`, and `g_teamId = "a";b";` yields `a";b` |
| Extractors.TeamIdAbsent | OurGroceries.API/API.cs:480-489 | a page on which `g_teamId = "` occurs nowhere yields no team id |
| Extractors.MasterListIdShape | OurGroceries.API/API.cs:130 | a master-list id contains no .NET whitespace; there is none exactly when the pattern matches nowhere |
| Extractors.MasterListIdOfAssignment | OurGroceries.API/API.cs:130 | `g_masterListUrl = "/your-lists/list/` + t + `"` yields t for every t without .NET whitespace, even one that contains `"`; no `;` is needed |
| Extractors.MasterListIdExamples | OurGroceries.API/API.cs:130 | `g_masterListUrl = "/your-lists/list/M99"` yields `M99`, and `g_masterListUrl = "/your-lists/list/a"b"` yields `a"b` |
| Extractors.MetalistTextShape | OurGroceries.API/API.cs:129 | the metalist text is one line that starts with `[` and ends with `]` |
| Extractors.MetalistExample | OurGroceries.API/API.cs:129 | `g_staticMetalist = [];` yields `[]` |
| Extractors.ListTypeIsCategory | OurGroceries.API/API.cs:497-499 | the selection predicate throws exactly on an entry that is not an object or whose `listType` is neither a string nor null; it holds exactly on an entry whose `listType` is the string `CATEGORY`; it is false exactly on every other entry |
| Extractors.SelectCategory | OurGroceries.API/API.cs:497-499 | the entry selected is a `CATEGORY` entry and every earlier entry is skipped cleanly; a fault is reported at the first entry on which the predicate throws; "none" means every entry was skipped |
| Extractors.SelectCategoryOnWellFormed | OurGroceries.API/API.cs:497-499 | when every entry is an object with a string `listType`, the selection never throws, and it finds nothing exactly when no `listType` is `CATEGORY` |
| Extractors.SelectCategoryStopsFirst | OurGroceries.API/API.cs:497-499 | `FirstOrDefault` stops at the first entry the predicate accepts, or at the first on which it throws, when every earlier entry is passed over |
| Extractors.SelectCategoryExample | OurGroceries.API/API.cs:497-499 | of a shopping list followed by a category list, the second entry is selected |
| JsonValue.TryGetProperty | OurGroceries.API/API.cs:498 | throws exactly on a non-object; otherwise yields the property when present and nothing when absent |
| JsonValue.GetString | OurGroceries.API/API.cs:499 | yields the text of a string or null for JSON null, and throws on every other kind of value |
| Commands.WireName | OurGroceries.API/API.cs:112-125 | every command name is a non-empty word of ASCII letters in camel case that starts in lower case |
| Commands.FromWire | OurGroceries.API/API.cs:112-125 | a wire name read back gives a command whose wire name it is |
| Commands.FromWireInvertsWireName | OurGroceries.API/API.cs:112-125 | reading a command's wire name back returns that command, except that `ItemRename` reads back as `ItemChangeValue` |
| Commands.WireNameCollisions | OurGroceries.API/API.cs:112-125 | two commands share a wire name exactly when they are equal or are the two `changeItemValue` constants |
| Sessions.LastCookieValue | OurGroceries.API/API.cs:457-461 | the cookie loop leaves the key equal to the last cookie value, or unchanged when the jar has no cookie |
| Sessions.SignIn | OurGroceries.API/API.cs:457-467 | only the session key changes; it is the last cookie value; the step throws "Could not find session cookie" exactly when that key is null or empty, and the key stays stored anyway |
| Sessions.MetalistEntries | OurGroceries.API/API.cs:491-495 | there are no entries exactly when the page has no metalist; the entries are the elements of the array the metalist text parses to; a metalist text that does not parse to an array is a JSON failure |
| Sessions.ResolveCategory | OurGroceries.API/API.cs:491-506 | only the category id can change; an absent metalist changes nothing; a failure leaves the session as it was; a metalist that is not a JSON array throws `JsonException`; no `CATEGORY` entry, or an entry on which the predicate throws before one, throws; a first `CATEGORY` entry without `id` changes nothing; its `id` sets the category id when a string or null and throws otherwise |
| Sessions.ResolveTeamAndCategory | OurGroceries.API/API.cs:470-507 | a missing team id throws "Could not find team ID" with the session untouched; otherwise the team id is stored; with no metalist nothing else changes; a metalist that is not a JSON array, or one without a `CATEGORY` entry, throws with the team id already stored; a first `CATEGORY` entry without `id` keeps only the team id; one with a string `id` makes that id the category id |
| Sessions.ResolveMasterList | OurGroceries.API/API.cs:509-526 | only the master-list id changes; the step throws "Could not find master list ID" exactly when the second page has none |
| Sessions.Identify | OurGroceries.API/API.cs:153-154 | after sign-in, a failing team and category step ends the login with that step's session and exception after one page fetch, so the master-list step is skipped; otherwise the page is fetched twice; the session key is kept, and success holds the first page's team id and the second page's master-list id |
| Sessions.Login | OurGroceries.API/API.cs:150-156 | the key ends as the last cookie value; a successful login holds a non-empty key, the first page's team id and the second page's master-list id; one sign-in POST comes first and at most two page fetches follow, both on success (the category id is stated by the lemmas below) |
| Sessions.CategoryFromFirstCategoryEntry | OurGroceries.API/API.cs:491-506 | the category id becomes the `id` of the first entry whose `listType` is `CATEGORY` |
| Sessions.CategoryOfFirstCategoryEntry | OurGroceries.API/API.cs:491-506 | whatever the id, a metalist whose first `CATEGORY` entry has that string `id` makes it the category id |
| Sessions.NoCategoryEntryFails | OurGroceries.API/API.cs:497-503 | a metalist without a `CATEGORY` entry, `[]` included, makes the step throw instead of skipping |
| Sessions.LoginStopsWithoutSessionCookie | OurGroceries.API/API.cs:457-467 | with no usable cookie, login throws after the sign-in POST, fetches no page and changes no identifier |
| Sessions.LoginStopsWithoutTeamId | OurGroceries.API/API.cs:480-489 | with no team id, login throws after one page fetch, keeps the key and does not fetch the page again |
| Sessions.LoginStopsWithoutCategoryEntry | OurGroceries.API/API.cs:491-506 | a metalist with no `CATEGORY` entry, `[]` included, fails the login after one page fetch, with the key and the team id stored |
| Sessions.LoginStopsWithoutMasterListId | OurGroceries.API/API.cs:516-525 | with no master-list id after a successful team and category step, metalist or not, login throws after both fetches and keeps the key, the team id and the category id it stored |
| Sessions.LoginSucceeds | OurGroceries.API/API.cs:150-156 | with a cookie, a successful team and category step (metalist or not) and a master-list id, login fills the key, the team id and the master-list id, and the category id is the one that step left |
| Sessions.LoginTakesFirstCategoryId | OurGroceries.API/API.cs:491-506 | a successful login on a page whose metalist has a first `CATEGORY` entry with a string `id` stores that id as the category id |
| Sessions.LoginNeverRollsBack | OurGroceries.API/API.cs:150-156 | a login that fails after sign-in leaves a non-empty key, and one that fails at the category or the master-list step also leaves the team id found on the first page |
| Sessions.LoginIgnoresCookieNames | OurGroceries.API/API.cs:457-461 | renaming the cookies changes nothing in the login |
| Sessions.LoginSignsInOnce | OurGroceries.API/API.cs:150-156 | a login sends exactly one sign-in POST |
| Sessions.NoSignInAmongPageGets | OurGroceries.API/API.cs:470-477 | page fetches are not sign-in POSTs |
| Dispatcher.NeedsLogin | OurGroceries.API/API.cs:530 | a login is triggered exactly when the key is null or the empty string, so always on a new client |
| Dispatcher.Envelope | OurGroceries.API/API.cs:535-548 | the envelope's keys are `command`, `teamId` when the stored team id is neither null nor empty, and the caller's keys; caller values win, and otherwise `command` is the command name and `teamId` the stored team id |
| Dispatcher.CopyEntries | OurGroceries.API/API.cs:542-548 | copying the caller's entries one by one ends with the caller's value under each caller key and the earlier value under every other key: it is the map merge `Envelope` uses |
| Dispatcher.Post | OurGroceries.API/API.cs:550-558 | the session is unchanged, the envelope is posted after the earlier requests, and the reply is the parsed body or a JSON failure when it does not parse |
| Dispatcher.Dispatch | OurGroceries.API/API.cs:528-559 | a session with a key posts at once and keeps its session; one without logs in first, ends with the login's session, and stops with the login's exception or posts with the team id the login found; whenever the post is sent, the reply is the parsed body, or a JSON failure when the body does not parse |
| Dispatcher.CallerEntriesWin | OurGroceries.API/API.cs:542-548 | a caller entry named `command` overrides the envelope's own, and so does one named `teamId`, each whether or not the other is present |
| Dispatcher.EmptyTeamIdOmitted | OurGroceries.API/API.cs:537-540 | a stored team id of `""` is left out of the envelope, as a null one is |
| Dispatcher.DispatchSignsInIffNeeded | OurGroceries.API/API.cs:530-533 | a dispatch sends one sign-in POST when the key is null or empty and none otherwise |
| Dispatcher.CountSignInsAppend | OurGroceries.API/API.cs:530-533 | sign-ins of a concatenated request sequence add up |
| Dispatcher.DispatchLogsInThenPosts | OurGroceries.API/API.cs:530-539 | a first dispatch whose login succeeds signs in, fetches the page twice, then posts with the team id taken from the first page |
| Dispatcher.FailedLoginIsNotRetried | OurGroceries.API/API.cs:530-533 | after a login that failed past sign-in, the next dispatch posts at once without logging in |
| Dispatcher.MalformedReplyKeepsSession | OurGroceries.API/API.cs:555-558 | a reply that is not JSON fails the call and leaves a logged-in session unchanged |
| Operations.ToUpper | OurGroceries.API/API.cs:228 | the result has the same length and no lower-case ASCII letter, and each character is unchanged or the upper case of a lower-case letter |
| Operations.ToUpperIdempotent | OurGroceries.API/API.cs:228 | upper-casing twice equals once, and an upper-case list type is sent as given |
| Operations.ItemPayload | OurGroceries.API/API.cs:301-307 | an item becomes a map of exactly `listId`, `value`, `categoryId` and `note`, with the target list, and it reads back as the item |
| Operations.ItemPayloads | OurGroceries.API/API.cs:301-307 | one item map per input item, in input order |
| Operations.Prepare | OurGroceries.API/API.cs:161-435 | an operation throws the field's "not initialized" message exactly when the field it checks is null; no payload overrides `command`; a guarded operation sends the checked field's value |
| Operations.Invoke | OurGroceries.API/API.cs:183-187 | a guard failure returns before any request and leaves the session unchanged |
| Operations.GuardFailureNeverLogsIn | OurGroceries.API/API.cs:183-187 | a failing guard never triggers a login, even on a session without a key |
| Operations.FreshClientFailsGuardedOperations | OurGroceries.API/API.cs:183-184 | on a new client every guarded operation throws without sending a request |
| Operations.FreshClientLogsInFirst | OurGroceries.API/API.cs:161-164 | on a new client an unguarded operation signs in exactly once |
| Operations.EmptyTeamIdPassesGuards | OurGroceries.API/API.cs:354-355 | a team id of `""` passes every team guard |
| Operations.EmptyTeamIdInEnvelope | OurGroceries.API/API.cs:537-540 | with a team id of `""`, every operation that passes its guard posts one envelope, and that envelope carries `teamId` exactly when the operation's own parameters do |
| Operations.EmptyTeamIdEnvelopeExamples | OurGroceries.API/API.cs:354-392 | with a team id of `""`, `DeleteAllCrossedOffFromListAsync` posts no `teamId` and `GetCategoryListAsync` posts `""` |
| Operations.AddItemToListPayload | OurGroceries.API/API.cs:275-292 | the list, value and note (null as `""`) are always sent, and the category only when `autoCategory` is false |
| Operations.AddItemDefaults | OurGroceries.API/API.cs:275 | with its defaults the item goes under `uncategorized` with an empty note |
| Operations.CreateListPayload | OurGroceries.API/API.cs:221-229 | the list type is sent upper-cased, and by default it is `SHOPPING` |
| Operations.ItemPayloadsRoundTrip | OurGroceries.API/API.cs:297-315 | the item maps read back as the input items, in order, each tagged with the target list |
| Operations.EnvelopeNamesOwnCommand | OurGroceries.API/API.cs:528-548 | whenever an operation posts its envelope, after a login or without one, the envelope names the operation's own command; it is the only request of a session with a key and the fourth after a successful login |

## Left out

- HTTP transport: the HttpClient, the cookie container, URLs, form encoding,
  request headers and the sign-in form fields. Cookies are given as a sequence
  and pages and replies as strings.
- `async`/`Task`: the client has no locking, so the model has no concurrency.
- JSON serialisation and parsing: the parser is a given function. JSON numbers
  are integers, and an object is a map, so a repeated property keeps one value.
- Response projections into DTOs: the lists overview, category items, list
  data and the `listId` of a created list. Each operation returns the parsed
  reply document.
- The DTO and input classes, except `NewListItem`, are only shapes.
- Logging, `Dispose`, the empty `API` class and the constructor.
- Strings are sequences of Unicode scalar values, not UTF-16 code units.
- Operations.ToUpper: the current culture's upper-casing is replaced by the
  invariant ASCII mapping, because culture data is outside the model. Under
  some cultures this changes ASCII letters too: under tr-TR, `i` becomes `İ`.
- OurGroceries/Program.cs, a sample script that makes live network calls, is
  not part of this model.

=== FILE: commands.dfy ===
/** The command names the client sends in the `command` field of its envelope. */
module Commands {
  import opened Wrappers

  /** One constructor per action constant of the client. `ItemRename` and
      `ItemChangeValue` are two constants with the same wire name; `ItemRename`,
      `ListRename` and `GetMasterList` are declared but no operation sends them. */
  datatype Command =
    | GetList
    | GetLists
    | ItemCrossedOff
    | ItemAdd
    | ItemAddItems
    | ItemRemove
    | ItemRename
    | ListCreate
    | ListRemove
    | ListRename
    | GetMasterList
    | GetCategoryList
    | ItemChangeValue
    | ListDeleteAllCrossedOff

  /** An ASCII letter. */
  predicate IsLetter(ch: char) {
    'a' <= ch <= 'z' || 'A' <= ch <= 'Z'
  }

  /** The wire name of a command: a camel-case word of ASCII letters that starts
      in lower case, so it goes into JSON without escaping. */
  function WireName(c: Command): (r: string)
    ensures |r| > 0 && 'a' <= r[0] <= 'z'
    ensures forall ch :: ch in r ==> IsLetter(ch)
  {
    match c
    case GetList => "getList"
    case GetLists => "getOverview"
    case ItemCrossedOff => "setItemCrossedOff"
    case ItemAdd => "insertItem"
    case ItemAddItems => "insertItems"
    case ItemRemove => "deleteItem"
    case ItemRename => "changeItemValue"
    case ListCreate => "createList"
    case ListRemove => "deleteList"
    case ListRename => "renameList"
    case GetMasterList => "getMasterList"
    case GetCategoryList => "getCategoryList"
    case ItemChangeValue => "changeItemValue"
    case ListDeleteAllCrossedOff => "deleteAllCrossedOffItems"
  }

  /** The command a wire name stands for; `changeItemValue` reads as `ItemChangeValue`. */
  function FromWire(name: string): (r: Option<Command>)
    ensures r.Some? ==> WireName(r.value) == name
  {
    match name
    case "getList" => Some(GetList)
    case "getOverview" => Some(GetLists)
    case "setItemCrossedOff" => Some(ItemCrossedOff)
    case "insertItem" => Some(ItemAdd)
    case "insertItems" => Some(ItemAddItems)
    case "deleteItem" => Some(ItemRemove)
    case "changeItemValue" => Some(ItemChangeValue)
    case "createList" => Some(ListCreate)
    case "deleteList" => Some(ListRemove)
    case "renameList" => Some(ListRename)
    case "getMasterList" => Some(GetMasterList)
    case "getCategoryList" => Some(GetCategoryList)
    case "deleteAllCrossedOffItems" => Some(ListDeleteAllCrossedOff)
    case _ => None
  }

  /** Reading a wire name back gives the command itself, except that the two
      `changeItemValue` constants read back as one. */
  lemma FromWireInvertsWireName(c: Command)
    ensures FromWire(WireName(c)) == Some(if c == ItemRename then ItemChangeValue else c)
  {
  }

  /** Two commands share a wire name exactly when they are equal or are the two
      `changeItemValue` constants. */
  lemma WireNameCollisions(a: Command, b: Command)
    ensures WireName(a) == WireName(b) <==>
              a == b || (a in {ItemRename, ItemChangeValue} && b in {ItemRename, ItemChangeValue})
  {
    FromWireInvertsWireName(a);
    FromWireInvertsWireName(b);
  }
}

=== FILE: dispatcher.dfy ===
/** `PostAsync`: log in when the session key is null or empty, build the command
    envelope, post it and parse the reply. */
module Dispatcher {
  import opened Wrappers
  import opened Failures
  import opened JsonValue
  import opened Commands
  import opened Sessions
  import opened Extractors

  /** The trigger for a login before a command: the key is null or the empty
      string. A key of other text, whitespace included, is taken as valid. */
  function NeedsLogin(s: Session): (r: bool)
    ensures r <==> s.sessionKey in {None, Some("")}
    ensures s == Fresh ==> r
  {
    IsNullOrEmpty(s.sessionKey)
  }

  /** The keys a caller's payload adds to the envelope. */
  function CallerKeys(payload: Option<map<string, Json>>): set<string> {
    if payload.Some? then payload.value.Keys else {}
  }

  /** The envelope: `command`, then `teamId` when the stored team id is neither
      null nor empty, then every caller entry, each overwriting what came before. */
  function Envelope(command: string, teamId: Option<string>, payload: Option<map<string, Json>>): (env: map<string, Json>)
    ensures env.Keys == {"command"} + (if IsNullOrEmpty(teamId) then {} else {"teamId"}) + CallerKeys(payload)
    ensures forall k :: k in CallerKeys(payload) ==> env[k] == payload.value[k]
    ensures "command" !in CallerKeys(payload) ==> env["command"] == JString(command)
    ensures !IsNullOrEmpty(teamId) && "teamId" !in CallerKeys(payload) ==> env["teamId"] == JString(teamId.value)
  {
    var base := map["command" := JString(command)];
    var withTeam := if IsNullOrEmpty(teamId) then base else base["teamId" := JString(teamId.value)];
    match payload
    case None => withTeam
    case Some(other) => withTeam + other
  }

  /** The `foreach` that copies the caller's entries into the envelope one by one:
      it ends with the caller's value under each caller key and the earlier value
      under every other key. */
  method CopyEntries(envelope: map<string, Json>, other: map<string, Json>) returns (result: map<string, Json>)
    ensures result.Keys == envelope.Keys + other.Keys
    ensures forall k :: k in other ==> result[k] == other[k]
    ensures forall k :: k in envelope && k !in other ==> result[k] == envelope[k]
    ensures result == envelope + other
  {
    result := envelope;
    var pending := other.Keys;
    while pending != {}
      invariant pending <= other.Keys
      invariant result.Keys == envelope.Keys + (other.Keys - pending)
      invariant forall k :: k in other && k !in pending ==> result[k] == other[k]
      invariant forall k :: k in envelope && k !in other ==> result[k] == envelope[k]
      decreases pending
    {
      var k :| k in pending;
      result := result[k := other[k]];
      pending := pending - {k};
    }
  }

  /** One `PostAsync` call: the session afterwards, every request sent, and the
      parsed reply or the exception that escaped. */
  datatype Exchange = Exchange(session: Session, calls: seq<Call>, reply: Result<Json, Failure>)

  /** Post the envelope of `command` with the session's team id and parse the reply. */
  function Post(s: Session, before: seq<Call>, command: Command, payload: Option<map<string, Json>>,
                net: Network): (x: Exchange)
    ensures x.session == s
    ensures x.calls == before + [CommandPost(Envelope(WireName(command), s.teamId, payload))]
    ensures x.reply.Ok? <==> net.parse(net.commandReply).Some?
    ensures x.reply.Ok? ==> x.reply.value == net.parse(net.commandReply).value
    ensures x.reply.Err? ==> x.reply.error == MalformedJson
  {
    var sent := before + [CommandPost(Envelope(WireName(command), s.teamId, payload))];
    match net.parse(net.commandReply)
    case None => Exchange(s, sent, Err(MalformedJson))
    case Some(doc) => Exchange(s, sent, Ok(doc))
  }

  /** `PostAsync(command, payload)`. */
  function Dispatch(s: Session, command: Command, payload: Option<map<string, Json>>, net: Network): (x: Exchange)
    ensures !NeedsLogin(s) ==> x.session == s && x.calls == [CommandPost(Envelope(WireName(command), s.teamId, payload))]
    ensures NeedsLogin(s) ==> x.session == Login(s, net).session
    ensures NeedsLogin(s) && Login(s, net).failure.None? ==>
              x.calls == Login(s, net).calls + [CommandPost(Envelope(WireName(command), x.session.teamId, payload))]
    ensures NeedsLogin(s) && Login(s, net).failure.Some? ==>
              x.reply == Err(Login(s, net).failure.value) && x.calls == Login(s, net).calls
    ensures x.reply.Ok? ==> net.parse(net.commandReply) == Some(x.reply.value)
    ensures !NeedsLogin(s) || Login(s, net).failure.None? ==>
              x.reply == if net.parse(net.commandReply).Some? then Ok(net.parse(net.commandReply).value)
                         else Err(MalformedJson)
  {
    if NeedsLogin(s) then
      var run := Login(s, net);
      match run.failure
      case Some(f) => Exchange(run.session, run.calls, Err(f))
      case None => Post(run.session, run.calls, command, payload, net)
    else
      Post(s, [], command, payload, net)
  }

  // ---------------------------------------------------------------------------
  // Properties of the dispatch

  /** The envelope's `command` and `teamId` entries give way to caller entries of
      the same name: the caller's value wins on every key it supplies. */
  lemma CallerEntriesWin(command: string, teamId: Option<string>, payload: map<string, Json>)
    ensures "command" in payload ==> Envelope(command, teamId, Some(payload))["command"] == payload["command"]
    ensures "teamId" in payload ==> Envelope(command, teamId, Some(payload))["teamId"] == payload["teamId"]
  {
  }

  /** A stored team id of `""` is left out of the envelope, like a null one. */
  lemma EmptyTeamIdOmitted(command: string, payload: Option<map<string, Json>>)
    requires "teamId" !in CallerKeys(payload)
    ensures "teamId" !in Envelope(command, Some(""), payload)
    ensures Envelope(command, Some(""), payload) == Envelope(command, None, payload)
  {
  }

  /** The dispatch signs in exactly once when the session key is null or empty,
      and never otherwise. */
  lemma DispatchSignsInIffNeeded(s: Session, command: Command, payload: Option<map<string, Json>>, net: Network)
    ensures CountSignIns(Dispatch(s, command, payload, net).calls) == if NeedsLogin(s) then 1 else 0
  {
    var x := Dispatch(s, command, payload, net);
    if NeedsLogin(s) {
      var run := Login(s, net);
      LoginSignsInOnce(s, net);
      if run.failure.None? {
        CountSignInsAppend(run.calls, [CommandPost(Envelope(WireName(command), run.session.teamId, payload))]);
      }
    }
  }

  lemma {:induction false} CountSignInsAppend(a: seq<Call>, b: seq<Call>)
    ensures CountSignIns(a + b) == CountSignIns(a) + CountSignIns(b)
    decreases |a|
  {
    if |a| == 0 {
      assert a + b == b;
    } else {
      assert (a + b)[1..] == a[1..] + b;
      CountSignInsAppend(a[1..], b);
    }
  }

  /** A first dispatch on an unauthenticated session whose login succeeds signs in,
      fetches the page twice, then posts the command with the team id the login found. */
  lemma DispatchLogsInThenPosts(s: Session, command: Command, payload: Option<map<string, Json>>, net: Network)
    ensures NeedsLogin(s) && Login(s, net).failure.None? ==>
              Dispatch(s, command, payload, net).calls
              == [SignInPost, ListsPageGet, ListsPageGet,
                  CommandPost(Envelope(WireName(command), TeamId(net.listsPage), payload))]
  {
  }

  /** After a login that failed past the sign-in step, the key it stored stops the
      next dispatch from logging in again: that dispatch posts at once. */
  lemma FailedLoginIsNotRetried(s: Session, command: Command, payload: Option<map<string, Json>>,
                                net: Network, next: Network)
    requires NeedsLogin(s)
    requires Login(s, net).failure.Some? && Login(s, net).failure.value != InvalidLogin(NoSessionCookie)
    ensures var s' := Dispatch(s, command, payload, net).session;
            && !NeedsLogin(s')
            && Dispatch(s', command, payload, next).calls
               == [CommandPost(Envelope(WireName(command), s'.teamId, payload))]
  {
    LoginNeverRollsBack(s, net);
  }

  /** A reply that is not JSON fails the dispatch and leaves a logged-in session as it was. */
  lemma MalformedReplyKeepsSession(s: Session, command: Command, payload: Option<map<string, Json>>, net: Network)
    requires !NeedsLogin(s) && net.parse(net.commandReply).None?
    ensures Dispatch(s, command, payload, net).reply == Err(MalformedJson)
    ensures Dispatch(s, command, payload, net).session == s
  {
  }
}

=== FILE: extractors.dfy ===
/** The identifiers the client scrapes from the "your lists" page, and the
    choice of the category list among the entries of the static metalist. */
module Extractors {
  import opened Wrappers
  import opened Patterns
  import opened JsonValue

  /** `g_teamId = "(.*)";` */
  const TeamIdPattern := Pattern("g_teamId = \"", AnyButNewline, "\";", 0, 0)
  /** `g_staticMetalist = (\[.*\]);` */
  const MetalistPattern := Pattern("g_staticMetalist = [", AnyButNewline, "];", 1, 1)
  /** `g_masterListUrl = "/your-lists/list/(\S*)"` */
  const MasterListPattern := Pattern("g_masterListUrl = \"/your-lists/list/", NonWhitespace, "\"", 0, 0)

  /** The team id: group 1 of the team-id regex, or `None` when it does not match. */
  function TeamId(page: string): (r: Option<string>)
    ensures r.None? <==> forall p, q :: !MatchesAt(page, TeamIdPattern, p, q)
    ensures r.Some? ==> exists p, q :: IsFirstLongest(page, TeamIdPattern, p, q) && r.value == page[p + 12 .. q]
  {
    Capture(page, TeamIdPattern)
  }

  /** The JSON array text assigned to `g_staticMetalist`, brackets included. */
  function MetalistText(page: string): (r: Option<string>)
    ensures r.None? <==> forall p, q :: !MatchesAt(page, MetalistPattern, p, q)
    ensures r.Some? ==> exists p, q :: IsFirstLongest(page, MetalistPattern, p, q) && r.value == page[p + 19 .. q + 1]
  {
    Capture(page, MetalistPattern)
  }

  /** The master-list id: group 1 of the master-list regex. */
  function MasterListId(page: string): (r: Option<string>)
    ensures r.None? <==> forall p, q :: !MatchesAt(page, MasterListPattern, p, q)
    ensures r.Some? ==> exists p, q :: IsFirstLongest(page, MasterListPattern, p, q) && r.value == page[p + 36 .. q]
  {
    Capture(page, MasterListPattern)
  }

  /** A team id never spans a line break, and there is one exactly when some
      `g_teamId = "` is followed on its own line by `";`. */
  lemma TeamIdShape(page: string)
    ensures TeamId(page).Some? ==> '\n' !in TeamId(page).value
    ensures TeamId(page).None? <==> forall p, q :: !MatchesAt(page, TeamIdPattern, p, q)
  {
    if TeamId(page).Some? {
      var t := TeamId(page).value;
      CaptureParts(page, TeamIdPattern, t);
      assert forall i :: 0 <= i < |t| ==> t[i] != '\n';
    }
  }

  /** A master-list id never holds whitespace. */
  lemma MasterListIdShape(page: string)
    ensures MasterListId(page).Some? ==> forall c :: c in MasterListId(page).value ==> !IsWhitespace(c)
    ensures MasterListId(page).None? <==> forall p, q :: !MatchesAt(page, MasterListPattern, p, q)
  {
    if MasterListId(page).Some? {
      CaptureParts(page, MasterListPattern, MasterListId(page).value);
    }
  }

  /** The metalist text, when present, is one line that starts with `[` and ends with `]`. */
  lemma MetalistTextShape(page: string, t: string)
    requires MetalistText(page) == Some(t)
    ensures 2 <= |t| && t[0] == '[' && t[|t| - 1] == ']'
    ensures '\n' !in t
  {
    CaptureParts(page, MetalistPattern, t);
    assert t[..1] == "[";
    assert t[|t| - 1 ..] == "]";
    assert t[0] == t[..1][0];
    assert t[|t| - 1] == t[|t| - 1 ..][0];
    forall i | 0 <= i < |t| ensures t[i] != '\n' {
      if 0 < i < |t| - 1 {
        assert MetalistPattern.body.Contains(t[i]);
      }
    }
  }

  /** An assignment line yields the team id between its quotes, whatever it holds
      short of a line feed. */
  lemma TeamIdOfAssignment(t: string)
    requires '\n' !in t
    ensures TeamId(TeamIdPattern.open + t + TeamIdPattern.close) == Some(t)
  {
    var page := TeamIdPattern.open + t + TeamIdPattern.close;
    var q := |TeamIdPattern.open| + |t|;
    assert page[..q] == TeamIdPattern.open + t;
    assert page[0..|TeamIdPattern.open|] == TeamIdPattern.open;
    assert page[q..q + 2] == TeamIdPattern.close;
    assert forall k :: |TeamIdPattern.open| <= k < q ==> page[k] == t[k - |TeamIdPattern.open|];
    CaptureOfWholeText(page, TeamIdPattern, q);
    assert page[|TeamIdPattern.open|..q] == t;
  }

  /** An assignment line yields the master-list id before its closing quote,
      whatever it holds short of whitespace. */
  lemma MasterListIdOfAssignment(t: string)
    requires forall c :: c in t ==> !IsWhitespace(c)
    ensures MasterListId(MasterListPattern.open + t + MasterListPattern.close) == Some(t)
  {
    var page := MasterListPattern.open + t + MasterListPattern.close;
    var q := |MasterListPattern.open| + |t|;
    assert page[..q] == MasterListPattern.open + t;
    assert page[0..|MasterListPattern.open|] == MasterListPattern.open;
    assert page[q..q + 1] == MasterListPattern.close;
    assert forall k :: |MasterListPattern.open| <= k < q ==> page[k] == t[k - |MasterListPattern.open|];
    CaptureOfWholeText(page, MasterListPattern, q);
    assert page[|MasterListPattern.open|..q] == t;
  }

  /** `g_teamId = "T123";` yields `T123`. The star is greedy: the capture runs
      to the last `";` of the line, so `g_teamId = "a";b";` yields `a";b`. */
  lemma TeamIdExamples()
    ensures TeamId(TeamIdPattern.open + "T123" + TeamIdPattern.close) == Some("T123")
    ensures TeamId(TeamIdPattern.open + "a\";b" + TeamIdPattern.close) == Some("a\";b")
  {
    TeamIdOfAssignment("T123");
    TeamIdOfAssignment("a\";b");
  }

  /** A page on which `g_teamId = "` occurs nowhere has no team id. */
  lemma TeamIdAbsent(page: string)
    requires forall p :: !HasAt(page, p, TeamIdPattern.open)
    ensures TeamId(page) == None
  {
  }

  /** `g_masterListUrl = "/your-lists/list/M99"` yields `M99`; no `;` is needed.
      The capture also runs to the last `"` of its non-whitespace run, so
      `g_masterListUrl = "/your-lists/list/a"b"` yields `a"b`. */
  lemma MasterListIdExamples()
    ensures MasterListId(MasterListPattern.open + "M99" + MasterListPattern.close) == Some("M99")
    ensures MasterListId(MasterListPattern.open + "a\"b" + MasterListPattern.close) == Some("a\"b")
  {
    MasterListIdOfAssignment("M99");
    MasterListIdOfAssignment("a\"b");
  }

  /** `g_staticMetalist = [];` yields the empty array text `[]`. */
  lemma MetalistExample()
    ensures MetalistText("g_staticMetalist = [];") == Some("[]")
  {
    var s := "g_staticMetalist = [];";
    assert MatchesAt(s, MetalistPattern, 0, 20);
    CaptureOfWholeText(s, MetalistPattern, 20);
    assert s[19..21] == "[]";
  }

  // ---------------------------------------------------------------------------
  // Choosing the category list among the metalist entries

  /** The outcome of `FirstOrDefault(list => list.TryGetProperty("listType", out t) &&
      t.GetString() == "CATEGORY")`: the index found, the default element, or the
      index at which the predicate threw. */
  datatype Selection = Found(index: nat) | NoCategory | Faulted(index: nat)

  /** An entry that the selection predicate accepts. */
  predicate IsCategoryEntry(e: Json) {
    e.JObject? && "listType" in e.props && e.props["listType"] == JString("CATEGORY")
  }

  /** An entry on which the selection predicate throws: it is not an object, or its
      `listType` is neither a string nor null. */
  predicate IsFaultyEntry(e: Json) {
    || !e.JObject?
    || ("listType" in e.props && !e.props["listType"].JString? && !e.props["listType"].JNull?)
  }

  /** An entry the predicate evaluates to false without throwing. */
  predicate IsSkippedEntry(e: Json) {
    !IsCategoryEntry(e) && !IsFaultyEntry(e)
  }

  /** The selection predicate, written with the two accessors it calls. */
  function ListTypeIsCategory(e: Json): (r: Result<bool, Failures.Failure>)
    ensures r.Err? <==> IsFaultyEntry(e)
    ensures r == Ok(true) <==> IsCategoryEntry(e)
    ensures r == Ok(false) <==> IsSkippedEntry(e)
  {
    match TryGetProperty(e, "listType")
    case Err(f) => Err(f)
    case Ok(None) => Ok(false)
    case Ok(Some(t)) =>
      match GetString(t)
      case Err(f) => Err(f)
      case Ok(v) => Ok(v == Some("CATEGORY"))
  }

  /** `FirstOrDefault` over `entries[from..]`, evaluating the predicate in order. */
  function SelectCategory(entries: seq<Json>, from: nat): (r: Selection)
    requires from <= |entries|
    ensures r.Found? ==> from <= r.index < |entries| && IsCategoryEntry(entries[r.index])
    ensures r.Faulted? ==> from <= r.index < |entries| && IsFaultyEntry(entries[r.index])
    ensures r.Found? || r.Faulted? ==> forall j :: from <= j < r.index ==> IsSkippedEntry(entries[j])
    ensures r.NoCategory? ==> forall j :: from <= j < |entries| ==> IsSkippedEntry(entries[j])
    decreases |entries| - from
  {
    if from == |entries| then NoCategory
    else
      match ListTypeIsCategory(entries[from])
      case Err(_) => Faulted(from)
      case Ok(true) => Found(from)
      case Ok(false) => SelectCategory(entries, from + 1)
  }

  /** Entry `i` is the first `CATEGORY` entry, and no earlier entry throws. */
  predicate FirstCategoryAt(entries: seq<Json>, i: int) {
    0 <= i < |entries| && IsCategoryEntry(entries[i])
    && forall j :: 0 <= j < i ==> IsSkippedEntry(entries[j])
  }

  /** Entry `i` throws in the predicate, and every earlier entry is passed over. */
  predicate FirstFaultAt(entries: seq<Json>, i: int) {
    0 <= i < |entries| && IsFaultyEntry(entries[i])
    && forall j :: 0 <= j < i ==> IsSkippedEntry(entries[j])
  }

  /** The selection stops at the first entry the predicate accepts or throws on. */
  lemma SelectCategoryStopsFirst(entries: seq<Json>)
    ensures forall i :: FirstCategoryAt(entries, i) ==> SelectCategory(entries, 0) == Found(i)
    ensures forall i :: FirstFaultAt(entries, i) ==> SelectCategory(entries, 0) == Faulted(i)
  {
    var sel := SelectCategory(entries, 0);
    forall i | FirstCategoryAt(entries, i) || FirstFaultAt(entries, i)
      ensures sel.Found? || sel.Faulted?
      ensures (sel.Found? || sel.Faulted?) ==> sel.index == i
    {
      if sel.Found? || sel.Faulted? {
        assert !(sel.index < i);
        assert !(sel.index > i);
      }
    }
  }

  /** With every entry an object whose `listType` is a string, the selection finds
      the first `CATEGORY` entry, and finds none exactly when there is none. */
  lemma {:induction false} SelectCategoryOnWellFormed(entries: seq<Json>, from: nat)
    requires from <= |entries|
    requires forall j :: from <= j < |entries| ==>
               entries[j].JObject? && "listType" in entries[j].props && entries[j].props["listType"].JString?
    ensures !SelectCategory(entries, from).Faulted?
    ensures SelectCategory(entries, from).NoCategory? <==>
              forall j :: from <= j < |entries| ==> entries[j].props["listType"] != JString("CATEGORY")
    decreases |entries| - from
  {
    if from < |entries| && !IsCategoryEntry(entries[from]) {
      SelectCategoryOnWellFormed(entries, from + 1);
    }
  }

  /** Of a shopping list and a category list, the selection picks the category list. */
  lemma SelectCategoryExample()
    ensures SelectCategory([JObject(map["listType" := JString("SHOPPING"), "id" := JString("L1")]),
                            JObject(map["listType" := JString("CATEGORY"), "id" := JString("C1")])], 0)
            == Found(1)
  {
    var entries := [JObject(map["listType" := JString("SHOPPING"), "id" := JString("L1")]),
                    JObject(map["listType" := JString("CATEGORY"), "id" := JString("C1")])];
    assert IsSkippedEntry(entries[0]);
    assert IsCategoryEntry(entries[1]);
  }
}

=== FILE: failures.dfy ===
/** The exceptions the client lets escape to its callers. */
module Failures {

  datatype Failure =
    /** `InvalidLoginException` with its message. */
    | InvalidLogin(message: string)
    /** `InvalidOperationException` thrown by the client's own session-field guards. */
    | InvalidOperation(message: string)
    /** `InvalidOperationException` thrown inside System.Text.Json: a property looked up on a
        value that is not an object (or on a default element), or `GetString` on a value that
        is neither a string nor null. */
    | JsonMisuse
    /** `JsonException`: a text that is not the JSON the call expects. */
    | MalformedJson

  const NoSessionCookie := "Could not find session cookie"
  const NoTeamId := "Could not find team ID"
  const NoMasterListId := "Could not find master list ID"

  const CategoryNotReady := "Category ID not initialized. Call LoginAsync first."
  const MasterListNotReady := "Master list ID not initialized. Call LoginAsync first."
  const TeamNotReady := "Team ID not initialized. Call LoginAsync first."
}

=== FILE: json_value.dfy ===
/** JSON values, as far as the client builds or inspects them, and the two
    System.Text.Json accessors it calls on parsed values. */
module JsonValue {
  import opened Wrappers
  import opened Failures

  /** A JSON value. Numbers are kept as integers: the client never looks at one.
      An object is a map, so a repeated property name keeps only one value. */
  datatype Json =
    | JNull
    | JBool(b: bool)
    | JNumber(n: int)
    | JString(str: string)
    | JArray(elems: seq<Json>)
    | JObject(props: map<string, Json>)

  /** A C# `string?` as a JSON value: `null` is serialised as JSON null. */
  function OfNullable(v: Option<string>): (j: Json)
    ensures j.JNull? <==> v.None?
    ensures j.JString? ==> v == Some(j.str)
  {
    match v
    case None => JNull
    case Some(x) => JString(x)
  }

  /** `JsonElement.TryGetProperty`: `Ok(None)` when an object lacks the property,
      and a failure when the element is not an object at all. */
  function TryGetProperty(e: Json, name: string): (r: Result<Option<Json>, Failure>)
    ensures r.Err? <==> !e.JObject?
    ensures r.Err? ==> r.error == JsonMisuse
    ensures r.Ok? && r.value.Some? ==> name in e.props && e.props[name] == r.value.value
    ensures r.Ok? && r.value.None? ==> name !in e.props
  {
    match e
    case JObject(props) => Ok(if name in props then Some(props[name]) else None)
    case _ => Err(JsonMisuse)
  }

  /** `JsonElement.GetString`: the text of a string, `null` for JSON null,
      and a failure for any other kind of value. */
  function GetString(e: Json): (r: Result<Option<string>, Failure>)
    ensures r.Ok? <==> e.JString? || e.JNull?
    ensures r.Ok? ==> OfNullable(r.value) == e
    ensures r.Err? ==> r.error == JsonMisuse
  {
    match e
    case JString(x) => Ok(Some(x))
    case JNull => Ok(None)
    case _ => Err(JsonMisuse)
  }
}

=== FILE: operations.dfy ===
/** The public operations of the client: each checks the session field it needs,
    builds its parameter map and hands it to `PostAsync` with a fixed command. */
module Operations {
  import opened Wrappers
  import opened Failures
  import opened JsonValue
  import Commands
  import opened Sessions
  import opened Dispatcher

  /** An item for `AddItemsToListAsync`. */
  datatype NewListItem = NewListItem(value: string, categoryId: Option<string>, note: Option<string>)

  /** A call of one public `*Async` operation, with all its arguments. */
  datatype Operation =
    | GetMyLists
    | GetCategoryItems
    | GetListItems(listId: string)
    | CreateList(name: string, listType: string)
    | CreateCategory(name: string)
    | ToggleItemCrossedOff(listId: string, itemId: string, crossOff: bool)
    | AddItemToList(listId: string, value: string, category: string, autoCategory: bool, note: Option<string>)
    | AddItemsToList(listId: string, items: seq<NewListItem>)
    | RemoveItemFromList(listId: string, itemId: string)
    | GetMasterList
    | GetCategoryList
    | DeleteList(listId: string)
    | DeleteAllCrossedOffFromList(listId: string)
    | AddItemToMasterList(value: string, categoryId: string)
    | ChangeItemOnList(listId: string, itemId: string, categoryId: string, value: string)

  /** Default arguments of the C# signatures. */
  const DefaultListType := "SHOPPING"
  const DefaultCategory := "uncategorized"

  /** `CreateListAsync(name)` with its default list type. */
  function CreateListWithDefaults(name: string): Operation {
    CreateList(name, DefaultListType)
  }

  /** `AddItemToListAsync(listId, value)` with its defaults. */
  function AddItemWithDefaults(listId: string, value: string): Operation {
    AddItemToList(listId, value, DefaultCategory, false, None)
  }

  /** The command and parameter map an operation hands to `PostAsync`. */
  datatype Request = Request(command: Commands.Command, payload: Option<map<string, Json>>)

  /** The session fields an operation can depend on. */
  datatype Field = CategoryField | MasterListField | TeamField

  function FieldValue(s: Session, f: Field): Option<string> {
    match f
    case CategoryField => s.categoryId
    case MasterListField => s.masterListId
    case TeamField => s.teamId
  }

  /** The session field an operation checks before it dispatches, if any. */
  function Required(op: Operation): Option<Field> {
    match op
    case GetCategoryItems | CreateCategory(_) => Some(CategoryField)
    case GetMasterList | AddItemToMasterList(_, _) => Some(MasterListField)
    case GetCategoryList | DeleteList(_) | ChangeItemOnList(_, _, _, _) => Some(TeamField)
    case _ => None
  }

  /** The parameter an operation fills from the field it checks. */
  function FieldKey(f: Field): string {
    match f
    case CategoryField => "listId"
    case MasterListField => "listId"
    case TeamField => "teamId"
  }

  function NotReady(f: Field): string {
    match f
    case CategoryField => CategoryNotReady
    case MasterListField => MasterListNotReady
    case TeamField => TeamNotReady
  }

  // ---------------------------------------------------------------------------
  // Upper-casing of the list type

  predicate IsAsciiLower(c: char) {
    'a' <= c <= 'z'
  }

  function UpperChar(c: char): char {
    if IsAsciiLower(c) then (c as int - 32) as char else c
  }

  /** `string.ToUpper()`, restricted to the ASCII letters. */
  function ToUpper(s: string): (r: string)
    ensures |r| == |s|
    ensures forall i :: 0 <= i < |r| ==> !IsAsciiLower(r[i])
    ensures forall i :: 0 <= i < |r| ==> r[i] == s[i] || (IsAsciiLower(s[i]) && r[i] as int == s[i] as int - 32)
  {
    seq(|s|, i requires 0 <= i < |s| => UpperChar(s[i]))
  }

  /** Upper-casing twice is upper-casing once, and leaves an upper-case name alone. */
  lemma ToUpperIdempotent(s: string)
    ensures ToUpper(ToUpper(s)) == ToUpper(s)
    ensures (forall i :: 0 <= i < |s| ==> !IsAsciiLower(s[i])) ==> ToUpper(s) == s
  {
  }

  // ---------------------------------------------------------------------------
  // Payloads

  /** The map one `NewListItem` becomes; a null category or note is sent as JSON null. */
  function ItemPayload(listId: string, item: NewListItem): (r: Json)
    ensures r.JObject? && r.props.Keys == {"listId", "value", "categoryId", "note"}
    ensures r.props["listId"] == JString(listId)
    ensures DecodeItem(r) == Some(item)
  {
    JObject(map["listId" := JString(listId),
                "value" := JString(item.value),
                "categoryId" := OfNullable(item.categoryId),
                "note" := OfNullable(item.note)])
  }

  /** One item map per input item, in input order. */
  function ItemPayloads(listId: string, items: seq<NewListItem>): (r: seq<Json>)
    ensures |r| == |items|
    ensures forall i :: 0 <= i < |items| ==> r[i] == ItemPayload(listId, items[i])
  {
    seq(|items|, i requires 0 <= i < |items| => ItemPayload(listId, items[i]))
  }

  /** The guard, then the command and parameter map, of each operation. */
  function Prepare(s: Session, op: Operation): (r: Result<Request, Failure>)
    ensures r.Err? <==> Required(op).Some? && FieldValue(s, Required(op).value).None?
    ensures r.Err? ==> r.error == InvalidOperation(NotReady(Required(op).value))
    ensures r.Ok? && r.value.payload.Some? ==> "command" !in r.value.payload.value
    ensures r.Ok? && Required(op).Some? ==>
              var f := Required(op).value;
              r.value.payload.Some? && FieldKey(f) in r.value.payload.value
              && r.value.payload.value[FieldKey(f)] == JString(FieldValue(s, f).value)
  {
    match op
    case GetMyLists =>
      Ok(Request(Commands.GetLists, None))
    case GetCategoryItems =>
      if s.categoryId.None? then Err(InvalidOperation(CategoryNotReady))
      else Ok(Request(Commands.GetList, Some(map["listId" := JString(s.categoryId.value)])))
    case GetListItems(listId) =>
      Ok(Request(Commands.GetList, Some(map["listId" := JString(listId)])))
    case CreateList(name, listType) =>
      Ok(Request(Commands.ListCreate, Some(map["name" := JString(name), "listType" := JString(ToUpper(listType))])))
    case CreateCategory(name) =>
      if s.categoryId.None? then Err(InvalidOperation(CategoryNotReady))
      else Ok(Request(Commands.ItemAdd, Some(map["value" := JString(name), "listId" := JString(s.categoryId.value)])))
    case ToggleItemCrossedOff(listId, itemId, crossOff) =>
      Ok(Request(Commands.ItemCrossedOff,
                 Some(map["listId" := JString(listId), "itemId" := JString(itemId), "crossedOff" := JBool(crossOff)])))
    case AddItemToList(listId, value, category, autoCategory, note) =>
      var payload := map["listId" := JString(listId), "value" := JString(value), "note" := JString(note.GetOr(""))];
      Ok(Request(Commands.ItemAdd, Some(if autoCategory then payload else payload["categoryId" := JString(category)])))
    case AddItemsToList(listId, items) =>
      Ok(Request(Commands.ItemAddItems, Some(map["items" := JArray(ItemPayloads(listId, items))])))
    case RemoveItemFromList(listId, itemId) =>
      Ok(Request(Commands.ItemRemove, Some(map["listId" := JString(listId), "itemId" := JString(itemId)])))
    case GetMasterList =>
      if s.masterListId.None? then Err(InvalidOperation(MasterListNotReady))
      else Ok(Request(Commands.GetList, Some(map["listId" := JString(s.masterListId.value)])))
    case GetCategoryList =>
      if s.teamId.None? then Err(InvalidOperation(TeamNotReady))
      else Ok(Request(Commands.GetCategoryList, Some(map["teamId" := JString(s.teamId.value)])))
    case DeleteList(listId) =>
      if s.teamId.None? then Err(InvalidOperation(TeamNotReady))
      else Ok(Request(Commands.ListRemove, Some(map["listId" := JString(listId), "teamId" := JString(s.teamId.value)])))
    case DeleteAllCrossedOffFromList(listId) =>
      Ok(Request(Commands.ListDeleteAllCrossedOff, Some(map["listId" := JString(listId)])))
    case AddItemToMasterList(value, categoryId) =>
      if s.masterListId.None? then Err(InvalidOperation(MasterListNotReady))
      else Ok(Request(Commands.ItemAdd,
                      Some(map["listId" := JString(s.masterListId.value), "value" := JString(value),
                               "categoryId" := JString(categoryId)])))
    case ChangeItemOnList(listId, itemId, categoryId, value) =>
      if s.teamId.None? then Err(InvalidOperation(TeamNotReady))
      else Ok(Request(Commands.ItemChangeValue,
                      Some(map["itemId" := JString(itemId), "listId" := JString(listId), "newValue" := JString(value),
                               "categoryId" := JString(categoryId), "teamId" := JString(s.teamId.value)])))
  }

  /** A public operation: its guard, then `PostAsync`. A guard failure returns
      before any request is sent. */
  function Invoke(s: Session, op: Operation, net: Network): (x: Exchange)
    ensures Prepare(s, op).Err? ==> x.session == s && x.calls == [] && x.reply == Err(Prepare(s, op).error)
  {
    match Prepare(s, op)
    case Err(f) => Exchange(s, [], Err(f))
    case Ok(req) => Dispatch(s, req.command, req.payload, net)
  }

  // ---------------------------------------------------------------------------
  // Properties of the operations

  /** A guard that finds its field null throws before dispatch, so it never
      triggers a login, even on a session that has none. */
  lemma GuardFailureNeverLogsIn(s: Session, op: Operation, net: Network)
    requires Required(op).Some? && FieldValue(s, Required(op).value).None?
    ensures Invoke(s, op, net) == Exchange(s, [], Err(InvalidOperation(NotReady(Required(op).value))))
  {
  }

  /** On a newly constructed client every guarded operation throws, although an
      unguarded one would log in first. */
  lemma FreshClientFailsGuardedOperations(op: Operation, net: Network)
    requires Required(op).Some?
    ensures Invoke(Fresh, op, net).reply.Err? && Invoke(Fresh, op, net).calls == []
  {
  }

  /** An unguarded operation on a new client logs in exactly once before posting. */
  lemma FreshClientLogsInFirst(op: Operation, net: Network)
    requires Required(op).None?
    ensures CountSignIns(Invoke(Fresh, op, net).calls) == 1
  {
    var req := Prepare(Fresh, op).value;
    DispatchSignsInIffNeeded(Fresh, req.command, req.payload, net);
  }

  /** A team id of `""` passes the team guards. */
  lemma EmptyTeamIdPassesGuards(s: Session, op: Operation)
    requires s.teamId == Some("") && Required(op) == Some(TeamField)
    ensures Prepare(s, op).Ok?
  {
  }

  /** With a team id of `""` the envelope of any operation carries a `teamId`
      exactly when the operation passes one itself. */
  lemma EmptyTeamIdInEnvelope(s: Session, op: Operation, net: Network)
    requires s.teamId == Some("") && !NeedsLogin(s)
    ensures Prepare(s, op).Ok? ==>
              var x := Invoke(s, op, net);
              |x.calls| == 1 && x.calls[0].CommandPost?
              && ("teamId" in x.calls[0].body <==> "teamId" in CallerKeys(Prepare(s, op).value.payload))
  {
  }

  /** Two instances: `DeleteAllCrossedOffFromListAsync` sends no `teamId`, and
      `GetCategoryListAsync` sends `""`. */
  lemma EmptyTeamIdEnvelopeExamples(s: Session, listId: string, net: Network)
    requires s.teamId == Some("") && !NeedsLogin(s)
    ensures var x := Invoke(s, DeleteAllCrossedOffFromList(listId), net);
            |x.calls| == 1 && x.calls[0].CommandPost? && "teamId" !in x.calls[0].body
    ensures var x := Invoke(s, GetCategoryList, net);
            |x.calls| == 1 && x.calls[0].CommandPost? && x.calls[0].body["teamId"] == JString("")
  {
  }

  /** `AddItemToListAsync` always sends the list, the value and the note (null
      becomes `""`), and sends the category only when `autoCategory` is false. */
  lemma AddItemToListPayload(s: Session, listId: string, value: string, category: string,
                             autoCategory: bool, note: Option<string>)
    ensures var r := Prepare(s, AddItemToList(listId, value, category, autoCategory, note));
            && r.Ok? && r.value.command == Commands.ItemAdd && r.value.payload.Some?
            && r.value.payload.value.Keys == {"listId", "value", "note"} + (if autoCategory then {} else {"categoryId"})
            && r.value.payload.value["listId"] == JString(listId)
            && r.value.payload.value["value"] == JString(value)
            && r.value.payload.value["note"] == JString(if note.Some? then note.value else "")
            && (!autoCategory ==> r.value.payload.value["categoryId"] == JString(category))
  {
  }

  /** With its defaults, `AddItemToListAsync` files the item under `uncategorized`
      with an empty note. */
  lemma AddItemDefaults(s: Session, listId: string, value: string)
    ensures Prepare(s, AddItemWithDefaults(listId, value))
            == Ok(Request(Commands.ItemAdd, Some(map["listId" := JString(listId), "value" := JString(value),
                                                     "note" := JString(""), "categoryId" := JString("uncategorized")])))
  {
  }

  /** `CreateListAsync` sends the list type upper-cased; by default it is `SHOPPING`. */
  lemma CreateListPayload(s: Session, name: string, listType: string)
    ensures var r := Prepare(s, CreateList(name, listType));
            && r.Ok? && r.value.command == Commands.ListCreate
            && r.value.payload == Some(map["name" := JString(name), "listType" := JString(ToUpper(listType))])
            && forall i :: 0 <= i < |ToUpper(listType)| ==> !IsAsciiLower(ToUpper(listType)[i])
    ensures Prepare(s, CreateListWithDefaults(name)).value.payload.value["listType"] == JString(DefaultListType)
  {
    ToUpperIdempotent(DefaultListType);
  }

  /** Reading an item map back: the item it was built from. */
  function DecodeItem(j: Json): Option<NewListItem> {
    if j.JObject? && "value" in j.props && "categoryId" in j.props && "note" in j.props
       && j.props["value"].JString? && GetString(j.props["categoryId"]).Ok? && GetString(j.props["note"]).Ok?
    then Some(NewListItem(j.props["value"].str, GetString(j.props["categoryId"]).value, GetString(j.props["note"]).value))
    else None
  }

  function DecodeItems(js: seq<Json>): Option<seq<NewListItem>> {
    if |js| == 0 then Some([])
    else match (DecodeItem(js[0]), DecodeItems(js[1..]))
         case (Some(item), Some(rest)) => Some([item] + rest)
         case _ => None
  }

  /** `AddItemsToListAsync` loses nothing: its item maps read back as the input
      items, in input order, each tagged with the target list. */
  lemma {:induction false} ItemPayloadsRoundTrip(listId: string, items: seq<NewListItem>)
    ensures DecodeItems(ItemPayloads(listId, items)) == Some(items)
    ensures forall i :: 0 <= i < |items| ==> ItemPayloads(listId, items)[i].props["listId"] == JString(listId)
    decreases |items|
  {
    if |items| > 0 {
      assert ItemPayloads(listId, items)[1..] == ItemPayloads(listId, items[1..]);
      ItemPayloadsRoundTrip(listId, items[1..]);
      assert [items[0]] + items[1..] == items;
    }
  }

  /** No operation's parameters overwrite `command`: whenever an operation posts
      its envelope, after a login or not, that envelope names its own command. It
      is the last request, and a session with a key sends nothing else. */
  lemma EnvelopeNamesOwnCommand(s: Session, op: Operation, net: Network)
    requires Prepare(s, op).Ok?
    ensures var req := Prepare(s, op).value;
            var x := Invoke(s, op, net);
            |x.calls| > 0 && x.calls[|x.calls| - 1].CommandPost? ==>
              x.calls[|x.calls| - 1].body["command"] == JString(Commands.WireName(req.command))
    ensures !NeedsLogin(s) ==> |Invoke(s, op, net).calls| == 1 && Invoke(s, op, net).calls[0].CommandPost?
    ensures NeedsLogin(s) && Login(s, net).failure.None? ==>
              |Invoke(s, op, net).calls| == 4 && Invoke(s, op, net).calls[3].CommandPost?
  {
  }
}

=== FILE: patterns.dfy ===
/** A scanner for the one regex shape the client uses: a literal, a greedy
    star over a character class, and a second literal (`open C* close`).

    .NET's backtracking engine reports the leftmost start position at which the
    pattern matches at all and, at that position, the longest run of the star
    that still lets the closing literal follow. `Search` computes exactly that,
    and its contract says so against the declarative `MatchesAt`. */
module Patterns {
  import opened Wrappers

  /** `lit` occurs in `s` at index `i`. */
  predicate HasAt(s: string, i: int, lit: string) {
    0 <= i && i + |lit| <= |s| && s[i..i + |lit|] == lit
  }

  /** .NET's `\s`: `[\f\n\r\t\v\x85\p{Z}]`, where `\p{Z}` is the Unicode space,
      line and paragraph separators. */
  predicate IsWhitespace(c: char) {
    || c == ' ' || c == '\t' || c == '\n' || c == '\r'
    || c == '\U{000B}' || c == '\U{000C}' || c == '\U{0085}' || c == '\U{00A0}'
    || c == '\U{1680}' || ('\U{2000}' <= c <= '\U{200A}')
    || c == '\U{2028}' || c == '\U{2029}' || c == '\U{202F}' || c == '\U{205F}'
    || c == '\U{3000}'
  }

  /** The two character classes that appear under a star. */
  datatype CharClass =
    /** `.` without `RegexOptions.Singleline`: anything but a line feed. */
    | AnyButNewline
    /** `\S`. */
    | NonWhitespace
  {
    predicate Contains(c: char) {
      match this
      case AnyButNewline => c != '\n'
      case NonWhitespace => !IsWhitespace(c)
    }
  }

  /** The regex `open body* close`. The capture group starts `openKept`
      characters before the end of `open` and ends `closeKept` characters
      into `close`, so `(\[.*\]);` is `open = "["`, `closeKept = 1`, `openKept = 1`. */
  datatype Pattern = Pattern(open: string, body: CharClass, close: string, openKept: nat, closeKept: nat) {
    predicate Valid() {
      openKept <= |open| && closeKept <= |close|
    }
  }

  /** A match: the pattern starts at `start`; the star covers `start + |open|` up to `bodyEnd`. */
  datatype Match = Match(start: nat, bodyEnd: nat)

  /** The pattern matches `s` at `p` with its star ending at `q`. */
  predicate MatchesAt(s: string, pat: Pattern, p: int, q: int) {
    && HasAt(s, p, pat.open)
    && p + |pat.open| <= q
    && HasAt(s, q, pat.close)
    && forall k :: p + |pat.open| <= k < q ==> pat.body.Contains(s[k])
  }

  /** What `Regex.Match` reports: the leftmost start, then the longest star. */
  ghost predicate IsFirstLongest(s: string, pat: Pattern, p: int, q: int) {
    && MatchesAt(s, pat, p, q)
    && forall p', q' :: MatchesAt(s, pat, p', q') ==> p < p' || (p == p' && q' <= q)
  }

  /** The end of the maximal run of `cls` characters starting at `i`. */
  function RunEnd(s: string, cls: CharClass, i: nat): (j: nat)
    requires i <= |s|
    ensures i <= j <= |s|
    ensures forall k :: i <= k < j ==> cls.Contains(s[k])
    ensures j == |s| || !cls.Contains(s[j])
    decreases |s| - i
  {
    if i == |s| || !cls.Contains(s[i]) then i else RunEnd(s, cls, i + 1)
  }

  /** The last index in `lo..hi` (both inclusive) at which `lit` occurs. */
  function LastOccurrence(s: string, lit: string, lo: nat, hi: int): (r: Option<nat>)
    ensures r.Some? ==> lo <= r.value <= hi && HasAt(s, r.value, lit)
    ensures r.Some? ==> forall q :: r.value < q <= hi ==> !HasAt(s, q, lit)
    ensures r.None? ==> forall q :: lo <= q <= hi ==> !HasAt(s, q, lit)
    decreases hi + 1 - lo
  {
    if hi < lo then None
    else if HasAt(s, hi, lit) then Some(hi)
    else LastOccurrence(s, lit, lo, hi - 1)
  }

  /** Backtracking at one start position: the star first takes the whole run of
      its class, then gives characters back until `close` follows. */
  function LongestAt(s: string, pat: Pattern, p: nat): (r: Option<nat>)
    ensures r.Some? ==> MatchesAt(s, pat, p, r.value)
    ensures r.Some? ==> forall q :: MatchesAt(s, pat, p, q) ==> q <= r.value
    ensures r.None? ==> forall q :: !MatchesAt(s, pat, p, q)
  {
    if !HasAt(s, p, pat.open) then None
    else
      var c := p + |pat.open|;
      var e := RunEnd(s, pat.body, c);
      var r := LastOccurrence(s, pat.close, c, e);
      r
  }

  /** `Regex.Match` from index `from` on: the leftmost start at which the
      pattern matches, with the longest star there. */
  function Search(s: string, pat: Pattern, from: nat): (r: Option<Match>)
    ensures r.Some? ==> from <= r.value.start && MatchesAt(s, pat, r.value.start, r.value.bodyEnd)
    ensures r.Some? ==> forall p, q :: from <= p && MatchesAt(s, pat, p, q) ==>
                          r.value.start < p || (r.value.start == p && q <= r.value.bodyEnd)
    ensures r.None? ==> forall p, q :: from <= p ==> !MatchesAt(s, pat, p, q)
    decreases |s| - from
  {
    if |s| < from then None
    else
      match LongestAt(s, pat, from)
      case Some(q) => Some(Match(from, q))
      case None => Search(s, pat, from + 1)
  }

  /** The text of the capture group of the match `Regex.Match` reports. */
  function Capture(s: string, pat: Pattern): (r: Option<string>)
    requires pat.Valid()
    ensures r.None? <==> forall p, q :: !MatchesAt(s, pat, p, q)
    ensures r.Some? ==> exists p, q :: IsFirstLongest(s, pat, p, q)
                           && r.value == s[p + |pat.open| - pat.openKept .. q + pat.closeKept]
  {
    match Search(s, pat, 0)
    case None => None
    case Some(m) =>
      assert IsFirstLongest(s, pat, m.start, m.bodyEnd);
      Some(s[m.start + |pat.open| - pat.openKept .. m.bodyEnd + pat.closeKept])
  }

  /** The captured text lies inside a match of the pattern. */
  lemma CaptureWithin(s: string, pat: Pattern) returns (p: nat, q: nat)
    requires pat.Valid() && Capture(s, pat).Some?
    ensures MatchesAt(s, pat, p, q)
    ensures Capture(s, pat).value == s[p + |pat.open| - pat.openKept .. q + pat.closeKept]
  {
    var m := Search(s, pat, 0).value;
    p, q := m.start, m.bodyEnd;
  }

  /** The text a match captures begins with the kept tail of `open`. */
  lemma MatchOpenTail(s: string, pat: Pattern, p: nat, q: nat, t: string)
    requires pat.Valid() && MatchesAt(s, pat, p, q)
    requires t == s[p + |pat.open| - pat.openKept .. q + pat.closeKept]
    ensures pat.openKept <= |t| && t[..pat.openKept] == pat.open[|pat.open| - pat.openKept ..]
  {
    var c := p + |pat.open|;
    assert s[p .. c] == pat.open;
    assert t[..pat.openKept] == s[c - pat.openKept .. c];
  }

  /** The text a match captures ends with the kept head of `close`. */
  lemma MatchCloseHead(s: string, pat: Pattern, p: nat, q: nat, t: string)
    requires pat.Valid() && MatchesAt(s, pat, p, q)
    requires t == s[p + |pat.open| - pat.openKept .. q + pat.closeKept]
    ensures pat.closeKept <= |t| && t[|t| - pat.closeKept ..] == pat.close[..pat.closeKept]
  {
    assert s[q .. q + |pat.close|] == pat.close;
    assert s[q .. q + pat.closeKept] == s[q .. q + |pat.close|][..pat.closeKept];
    assert t[|t| - pat.closeKept ..] == s[q .. q + pat.closeKept];
  }

  /** Between the kept literals, the text a match captures is made of the starred class. */
  lemma MatchBody(s: string, pat: Pattern, p: nat, q: nat, t: string)
    requires pat.Valid() && MatchesAt(s, pat, p, q)
    requires t == s[p + |pat.open| - pat.openKept .. q + pat.closeKept]
    ensures pat.openKept + pat.closeKept <= |t|
    ensures forall i :: pat.openKept <= i < |t| - pat.closeKept ==> pat.body.Contains(t[i])
  {
    var d := p + |pat.open| - pat.openKept;
    forall i | pat.openKept <= i < |t| - pat.closeKept
      ensures pat.body.Contains(t[i])
    {
      assert t[i] == s[d + i];
    }
  }

  /** A capture is the kept tail of `open`, then characters of the starred class,
      then the kept head of `close`. */
  lemma CaptureParts(s: string, pat: Pattern, t: string)
    requires pat.Valid() && Capture(s, pat) == Some(t)
    ensures pat.openKept + pat.closeKept <= |t|
    ensures t[..pat.openKept] == pat.open[|pat.open| - pat.openKept ..]
    ensures t[|t| - pat.closeKept ..] == pat.close[..pat.closeKept]
    ensures forall i :: pat.openKept <= i < |t| - pat.closeKept ==> pat.body.Contains(t[i])
  {
    var p, q := CaptureWithin(s, pat);
    MatchOpenTail(s, pat, p, q, t);
    MatchCloseHead(s, pat, p, q, t);
    MatchBody(s, pat, p, q, t);
  }

  /** A match that starts at index 0 and closes at the very end of `s` is the one
      `Regex.Match` reports, whatever shorter matches it contains. */
  lemma {:induction false} CaptureOfWholeText(s: string, pat: Pattern, q: nat)
    requires pat.Valid() && MatchesAt(s, pat, 0, q) && q + |pat.close| == |s|
    ensures Capture(s, pat) == Some(s[|pat.open| - pat.openKept .. q + pat.closeKept])
  {
    var m := Search(s, pat, 0).value;
    assert m.start == 0 && q <= m.bodyEnd;
  }
}

=== FILE: sessions.dfy ===
/** The client's session fields and `LoginAsync` with its three steps. The
    network is replaced by what it would deliver: the cookies the jar holds for
    the service after sign-in, the two bodies of the "your lists" page (it is
    fetched once per identifier step), the body of a command reply, and a JSON
    parser standing in for System.Text.Json. */
module Sessions {
  import opened Wrappers
  import opened Failures
  import opened JsonValue
  import opened Extractors

  datatype Cookie = Cookie(name: string, value: string)

  /** The four nullable session fields of the client. */
  datatype Session = Session(
    sessionKey: Option<string>,
    teamId: Option<string>,
    masterListId: Option<string>,
    categoryId: Option<string>)

  /** A newly constructed client. */
  const Fresh := Session(None, None, None, None)

  /** C#'s `string.IsNullOrEmpty`. */
  predicate IsNullOrEmpty(v: Option<string>) {
    v.None? || v.value == ""
  }

  /** What the service answers. `parse` is the JSON parser: `None` for a text that
      is not JSON. */
  datatype Network = Network(
    cookies: seq<Cookie>,
    listsPage: string,
    listsPageAgain: string,
    commandReply: string,
    parse: string -> Option<Json>)

  /** A request the client sends. */
  datatype Call =
    | SignInPost
    | ListsPageGet
    | CommandPost(body: map<string, Json>)

  /** The end of one login step: the session as the step left it, and whether it threw. */
  datatype Step = Continue(session: Session) | Stop(session: Session, failure: Failure)

  /** The end of a login: the session as left (there is no rollback), the exception
      if one escaped, and the requests sent. */
  datatype LoginRun = LoginRun(session: Session, failure: Option<Failure>, calls: seq<Call>)

  /** The cookie loop: each cookie's value overwrites the session key in turn, so
      the key ends as the last value, or unchanged when there are no cookies. */
  function LastCookieValue(cookies: seq<Cookie>, key: Option<string>): (r: Option<string>)
    ensures |cookies| == 0 ==> r == key
    ensures |cookies| > 0 ==> r == Some(cookies[|cookies| - 1].value)
    decreases |cookies|
  {
    if |cookies| == 0 then key else LastCookieValue(cookies[1..], Some(cookies[0].value))
  }

  /** `GetSessionCookieAsync` after the sign-in POST. */
  function SignIn(s: Session, cookies: seq<Cookie>): (r: Step)
    ensures r.session == s.(sessionKey := r.session.sessionKey)
    ensures |cookies| > 0 ==> r.session.sessionKey == Some(cookies[|cookies| - 1].value)
    ensures |cookies| == 0 ==> r.session.sessionKey == s.sessionKey
    ensures r.Stop? <==> IsNullOrEmpty(r.session.sessionKey)
    ensures r.Stop? ==> r.failure == InvalidLogin(NoSessionCookie)
  {
    var signedIn := s.(sessionKey := LastCookieValue(cookies, s.sessionKey));
    if IsNullOrEmpty(signedIn.sessionKey) then Stop(signedIn, InvalidLogin(NoSessionCookie))
    else Continue(signedIn)
  }

  /** The metalist entries, when the page carries the metalist and it parses as a
      JSON array; `Err(MalformedJson)` when it is present but is no such array. */
  function MetalistEntries(page: string, parse: string -> Option<Json>): (r: Option<Result<seq<Json>, Failure>>)
    ensures r.None? <==> MetalistText(page).None?
    ensures r.Some? && r.value.Ok? ==> parse(MetalistText(page).value) == Some(JArray(r.value.value))
    ensures r.Some? && r.value.Err? ==> r.value.error == MalformedJson && !(parse(MetalistText(page).value).Some?
                                          && parse(MetalistText(page).value).value.JArray?)
  {
    match MetalistText(page)
    case None => None
    case Some(text) =>
      match parse(text)
      case Some(JArray(entries)) => Some(Ok(entries))
      case _ => Some(Err(MalformedJson))
  }

  /** The metalist is present, parses as an array, and every entry is one the
      selection passes over without throwing: there is no `CATEGORY` entry. */
  predicate LacksCategoryEntry(page: string, parse: string -> Option<Json>) {
    match MetalistEntries(page, parse)
    case Some(Ok(entries)) => forall j :: 0 <= j < |entries| ==> IsSkippedEntry(entries[j])
    case _ => false
  }

  /** The metalist's first `CATEGORY` entry, reached without an earlier entry
      throwing, has the string `id` given. */
  predicate FirstCategoryIdIs(page: string, parse: string -> Option<Json>, id: string) {
    match MetalistEntries(page, parse)
    case Some(Ok(entries)) =>
      exists i :: 0 <= i < |entries| && IsCategoryEntry(entries[i])
        && (forall j :: 0 <= j < i ==> IsSkippedEntry(entries[j]))
        && "id" in entries[i].props && entries[i].props["id"] == JString(id)
    case _ => false
  }

  /** The metalist's first `CATEGORY` entry, reached without an earlier entry
      throwing, has no `id` property, so the category id is left as it is. */
  predicate FirstCategoryLacksId(page: string, parse: string -> Option<Json>) {
    match MetalistEntries(page, parse)
    case Some(Ok(entries)) => exists i :: 0 <= i < |entries| && FirstCategoryAt(entries, i) && "id" !in entries[i].props
    case _ => false
  }

  /** The category half of `GetTeamIdAsync`, run after the team id is stored. */
  function ResolveCategory(s: Session, page: string, parse: string -> Option<Json>): (r: Step)
    ensures r.session == s.(categoryId := r.session.categoryId)
    ensures MetalistText(page).None? ==> r == Continue(s)
    ensures r.Stop? ==> r.session == s && r.failure in {MalformedJson, JsonMisuse}
    ensures r.Continue? && r.session.categoryId != s.categoryId ==>
              exists entries: seq<Json>, i: int :: MetalistEntries(page, parse) == Some(Ok(entries))
                && 0 <= i < |entries| && IsCategoryEntry(entries[i])
                && (forall j :: 0 <= j < i ==> IsSkippedEntry(entries[j]))
                && "id" in entries[i].props && entries[i].props["id"] == OfNullable(r.session.categoryId)
    ensures MetalistEntries(page, parse) == Some(Err(MalformedJson)) ==> r == Stop(s, MalformedJson)
    ensures LacksCategoryEntry(page, parse) ==> r == Stop(s, JsonMisuse)
    ensures MetalistEntries(page, parse).Some? && MetalistEntries(page, parse).value.Ok? ==>
              var entries := MetalistEntries(page, parse).value.value;
              && (forall i :: FirstFaultAt(entries, i) ==> r == Stop(s, JsonMisuse))
              && (forall i :: FirstCategoryAt(entries, i) && "id" !in entries[i].props ==> r == Continue(s))
              && (forall i :: FirstCategoryAt(entries, i) && "id" in entries[i].props ==>
                    var id := entries[i].props["id"];
                    && (id.JString? ==> r == Continue(s.(categoryId := Some(id.str))))
                    && (id.JNull? ==> r == Continue(s.(categoryId := None)))
                    && (!id.JString? && !id.JNull? ==> r == Stop(s, JsonMisuse)))
  {
    match MetalistEntries(page, parse)
    case None => Continue(s)
    case Some(Err(f)) => Stop(s, f)
    case Some(Ok(entries)) =>
      SelectCategoryStopsFirst(entries);
      match SelectCategory(entries, 0)
      // `TryGetProperty` on the default element `FirstOrDefault` returned
      case NoCategory => Stop(s, JsonMisuse)
      case Faulted(_) => Stop(s, JsonMisuse)
      case Found(i) =>
        match TryGetProperty(entries[i], "id")
        case Err(f) => Stop(s, f)
        case Ok(None) => Continue(s)
        case Ok(Some(id)) =>
          match GetString(id)
          case Err(f) => Stop(s, f)
          case Ok(v) => Continue(s.(categoryId := v))
  }

  /** `GetTeamIdAsync`: the team id, then the category id, from one page body. */
  function ResolveTeamAndCategory(s: Session, page: string, parse: string -> Option<Json>): (r: Step)
    ensures r.session.sessionKey == s.sessionKey && r.session.masterListId == s.masterListId
    ensures TeamId(page).None? <==> r == Stop(s, InvalidLogin(NoTeamId))
    ensures TeamId(page).Some? ==> r.session.teamId == TeamId(page)
    ensures TeamId(page).Some? && MetalistText(page).None? ==> r == Continue(s.(teamId := TeamId(page)))
    ensures TeamId(page).Some? && MetalistEntries(page, parse) == Some(Err(MalformedJson)) ==>
              r == Stop(s.(teamId := TeamId(page)), MalformedJson)
    ensures TeamId(page).Some? && LacksCategoryEntry(page, parse) ==> r == Stop(s.(teamId := TeamId(page)), JsonMisuse)
    ensures TeamId(page).Some? && FirstCategoryLacksId(page, parse) ==> r == Continue(s.(teamId := TeamId(page)))
    ensures forall id :: TeamId(page).Some? && FirstCategoryIdIs(page, parse, id) ==>
              r == Continue(s.(teamId := TeamId(page), categoryId := Some(id)))
  {
    match TeamId(page)
    case None => Stop(s, InvalidLogin(NoTeamId))
    case Some(t) =>
      var withTeam := s.(teamId := Some(t));
      CategoryOfFirstCategoryEntry(withTeam, page, parse);
      ResolveCategory(withTeam, page, parse)
  }

  /** `GetMasterListIdAsync`, on the second page body. */
  function ResolveMasterList(s: Session, page: string): (r: Step)
    ensures r.session == s.(masterListId := r.session.masterListId)
    ensures r.Stop? <==> MasterListId(page).None?
    ensures r.Stop? ==> r == Stop(s, InvalidLogin(NoMasterListId))
    ensures r.Continue? ==> r.session.masterListId == MasterListId(page)
  {
    match MasterListId(page)
    case None => Stop(s, InvalidLogin(NoMasterListId))
    case Some(m) => Continue(s.(masterListId := Some(m)))
  }

  /** `GetTeamIdAsync` then `GetMasterListIdAsync`, after a successful sign-in:
      one page fetch per step, stopping at the first step that throws. */
  function Identify(s: Session, net: Network): (r: LoginRun)
    ensures r.session.sessionKey == s.sessionKey
    ensures r.failure.None? ==>
              && r.session.teamId == TeamId(net.listsPage) && r.session.teamId.Some?
              && r.session.masterListId == MasterListId(net.listsPageAgain) && r.session.masterListId.Some?
    ensures r.calls == [ListsPageGet] || r.calls == [ListsPageGet, ListsPageGet]
    ensures r.failure.None? ==> |r.calls| == 2
    ensures var first := ResolveTeamAndCategory(s, net.listsPage, net.parse);
            first.Stop? ==> r == LoginRun(first.session, Some(first.failure), [ListsPageGet])
    ensures ResolveTeamAndCategory(s, net.listsPage, net.parse).Continue? ==> r.calls == [ListsPageGet, ListsPageGet]
  {
    match ResolveTeamAndCategory(s, net.listsPage, net.parse)
    case Stop(s2, f) => LoginRun(s2, Some(f), [ListsPageGet])
    case Continue(s2) =>
      match ResolveMasterList(s2, net.listsPageAgain)
      case Stop(s3, f) => LoginRun(s3, Some(f), [ListsPageGet, ListsPageGet])
      case Continue(s3) => LoginRun(s3, None, [ListsPageGet, ListsPageGet])
  }

  /** `LoginAsync`: the three steps in order, each stopping the login when it throws. */
  function Login(s: Session, net: Network): (r: LoginRun)
    ensures |net.cookies| > 0 ==> r.session.sessionKey == Some(net.cookies[|net.cookies| - 1].value)
    ensures |net.cookies| == 0 ==> r.session.sessionKey == s.sessionKey
    ensures r.failure.None? ==>
              && !IsNullOrEmpty(r.session.sessionKey)
              && r.session.teamId == TeamId(net.listsPage) && r.session.teamId.Some?
              && r.session.masterListId == MasterListId(net.listsPageAgain) && r.session.masterListId.Some?
    ensures 1 <= |r.calls| <= 3 && r.calls[0] == SignInPost
    ensures forall i :: 1 <= i < |r.calls| ==> r.calls[i] == ListsPageGet
    ensures r.failure.None? ==> |r.calls| == 3
  {
    match SignIn(s, net.cookies)
    case Stop(s1, f) => LoginRun(s1, Some(f), [SignInPost])
    case Continue(s1) =>
      var rest := Identify(s1, net);
      LoginRun(rest.session, rest.failure, [SignInPost] + rest.calls)
  }

  /** The number of sign-in POSTs among `calls`. */
  function CountSignIns(calls: seq<Call>): nat {
    if |calls| == 0 then 0
    else (if calls[0] == SignInPost then 1 else 0) + CountSignIns(calls[1..])
  }

  // ---------------------------------------------------------------------------
  // Properties of the login

  /** The category id comes from the first entry whose `listType` is the string
      `CATEGORY`, provided no earlier entry makes the selection throw. */
  lemma CategoryFromFirstCategoryEntry(s: Session, page: string, parse: string -> Option<Json>,
                                       entries: seq<Json>, i: nat, id: string)
    requires MetalistEntries(page, parse) == Some(Ok(entries))
    requires i < |entries| && IsCategoryEntry(entries[i])
    requires forall j :: 0 <= j < i ==> IsSkippedEntry(entries[j])
    requires "id" in entries[i].props && entries[i].props["id"] == JString(id)
    ensures ResolveCategory(s, page, parse) == Continue(s.(categoryId := Some(id)))
  {
    var sel := SelectCategory(entries, 0);
    assert sel == Found(i) by {
      if sel.Faulted? || sel.Found? {
        assert !(sel.index < i);
        assert !(sel.index > i);
      }
    }
  }

  /** `CategoryFromFirstCategoryEntry` for every id at once. */
  lemma CategoryOfFirstCategoryEntry(s: Session, page: string, parse: string -> Option<Json>)
    ensures forall id :: FirstCategoryIdIs(page, parse, id) ==>
              ResolveCategory(s, page, parse) == Continue(s.(categoryId := Some(id)))
  {
    forall id | FirstCategoryIdIs(page, parse, id)
      ensures ResolveCategory(s, page, parse) == Continue(s.(categoryId := Some(id)))
    {
      var entries := MetalistEntries(page, parse).value.value;
      var i :| 0 <= i < |entries| && IsCategoryEntry(entries[i])
        && (forall j :: 0 <= j < i ==> IsSkippedEntry(entries[j]))
        && "id" in entries[i].props && entries[i].props["id"] == JString(id);
      CategoryFromFirstCategoryEntry(s, page, parse, entries, i, id);
    }
  }

  /** A metalist without any `CATEGORY` entry, the empty one included, makes the
      login throw rather than skip the category. */
  lemma NoCategoryEntryFails(s: Session, page: string, parse: string -> Option<Json>, entries: seq<Json>)
    requires MetalistEntries(page, parse) == Some(Ok(entries))
    requires forall j :: 0 <= j < |entries| ==> IsSkippedEntry(entries[j])
    ensures ResolveCategory(s, page, parse) == Stop(s, JsonMisuse)
  {
  }

  /** Without a usable session cookie the login stops after the sign-in POST:
      neither page is fetched and no identifier changes. */
  lemma LoginStopsWithoutSessionCookie(s: Session, net: Network)
    requires IsNullOrEmpty(LastCookieValue(net.cookies, s.sessionKey))
    ensures Login(s, net) == LoginRun(s.(sessionKey := LastCookieValue(net.cookies, s.sessionKey)),
                                      Some(InvalidLogin(NoSessionCookie)), [SignInPost])
  {
  }

  /** Without a team id the login stops after the first page: the session key stays
      stored, the other identifiers are untouched and the second page is not fetched. */
  lemma LoginStopsWithoutTeamId(s: Session, net: Network)
    requires !IsNullOrEmpty(LastCookieValue(net.cookies, s.sessionKey))
    requires TeamId(net.listsPage).None?
    ensures Login(s, net) == LoginRun(s.(sessionKey := LastCookieValue(net.cookies, s.sessionKey)),
                                      Some(InvalidLogin(NoTeamId)), [SignInPost, ListsPageGet])
  {
  }

  /** A metalist without a `CATEGORY` entry fails the login after the first page,
      with the session key and the team id already stored. */
  lemma LoginStopsWithoutCategoryEntry(s: Session, net: Network)
    requires !IsNullOrEmpty(LastCookieValue(net.cookies, s.sessionKey))
    requires TeamId(net.listsPage).Some? && LacksCategoryEntry(net.listsPage, net.parse)
    ensures Login(s, net) == LoginRun(s.(sessionKey := LastCookieValue(net.cookies, s.sessionKey),
                                         teamId := TeamId(net.listsPage)),
                                      Some(JsonMisuse), [SignInPost, ListsPageGet])
  {
  }

  /** Without a master-list id the login fails after both pages, keeping the
      session key, the team id and the category id it stored. */
  lemma LoginStopsWithoutMasterListId(s: Session, net: Network)
    requires !IsNullOrEmpty(LastCookieValue(net.cookies, s.sessionKey))
    requires ResolveTeamAndCategory(s.(sessionKey := LastCookieValue(net.cookies, s.sessionKey)),
                                    net.listsPage, net.parse).Continue?
    requires MasterListId(net.listsPageAgain).None?
    ensures var first := ResolveTeamAndCategory(s.(sessionKey := LastCookieValue(net.cookies, s.sessionKey)),
                                                net.listsPage, net.parse).session;
            Login(s, net) == LoginRun(s.(sessionKey := LastCookieValue(net.cookies, s.sessionKey),
                                         teamId := TeamId(net.listsPage),
                                         categoryId := first.categoryId),
                                      Some(InvalidLogin(NoMasterListId)),
                                      [SignInPost, ListsPageGet, ListsPageGet])
  {
  }

  /** A login whose first page yields the team id and category step and whose second
      page yields a master-list id succeeds, with all four fields filled from them. */
  lemma LoginSucceeds(s: Session, net: Network)
    ensures var first := ResolveTeamAndCategory(s.(sessionKey := LastCookieValue(net.cookies, s.sessionKey)),
                                                net.listsPage, net.parse);
            && !IsNullOrEmpty(LastCookieValue(net.cookies, s.sessionKey))
            && first.Continue? && MasterListId(net.listsPageAgain).Some?
            ==> Login(s, net) == LoginRun(Session(LastCookieValue(net.cookies, s.sessionKey),
                                                  TeamId(net.listsPage),
                                                  MasterListId(net.listsPageAgain),
                                                  first.session.categoryId),
                                          None, [SignInPost, ListsPageGet, ListsPageGet])
  {
  }

  /** On a page whose metalist has a first `CATEGORY` entry with a string `id`,
      a successful login stores that id as the category id. */
  lemma LoginTakesFirstCategoryId(s: Session, net: Network, id: string)
    requires !IsNullOrEmpty(LastCookieValue(net.cookies, s.sessionKey))
    requires TeamId(net.listsPage).Some? && FirstCategoryIdIs(net.listsPage, net.parse, id)
    requires MasterListId(net.listsPageAgain).Some?
    ensures Login(s, net) == LoginRun(Session(LastCookieValue(net.cookies, s.sessionKey),
                                              TeamId(net.listsPage),
                                              MasterListId(net.listsPageAgain),
                                              Some(id)),
                                      None, [SignInPost, ListsPageGet, ListsPageGet])
  {
  }

  /** There is no rollback: a login that fails after the sign-in step leaves a
      non-empty session key behind, and one that fails after the team id was found
      (at the category or the master-list step) also leaves that team id. */
  lemma LoginNeverRollsBack(s: Session, net: Network)
    ensures var r := Login(s, net);
            r.failure.Some? && r.failure.value != InvalidLogin(NoSessionCookie) ==>
              !IsNullOrEmpty(r.session.sessionKey)
    ensures var r := Login(s, net);
            r.failure.Some? && r.failure.value !in {InvalidLogin(NoSessionCookie), InvalidLogin(NoTeamId)} ==>
              r.session.teamId == TeamId(net.listsPage) && r.session.teamId.Some?
  {
    var r := Login(s, net);
    if SignIn(s, net.cookies).Continue? {
      var s1 := SignIn(s, net.cookies).session;
      var r2 := ResolveTeamAndCategory(s1, net.listsPage, net.parse);
      assert r2.session.sessionKey == s1.sessionKey;
      if r2.Continue? {
        assert r.session.teamId == r2.session.teamId;
      }
    }
  }

  /** The session key is the value of the last cookie, whatever the cookies are
      named: renaming cookies changes nothing in the login. */
  lemma LoginIgnoresCookieNames(s: Session, net: Network, renamed: seq<Cookie>)
    requires |renamed| == |net.cookies|
    requires forall i :: 0 <= i < |renamed| ==> renamed[i].value == net.cookies[i].value
    ensures Login(s, net.(cookies := renamed)) == Login(s, net)
  {
    assert SignIn(s, renamed) == SignIn(s, net.cookies);
  }

  /** A login sends exactly one sign-in POST. */
  lemma LoginSignsInOnce(s: Session, net: Network)
    ensures CountSignIns(Login(s, net).calls) == 1
  {
    var calls := Login(s, net).calls;
    assert calls[0] == SignInPost;
    var rest := calls[1..];
    assert forall i :: 0 <= i < |rest| ==> rest[i] == ListsPageGet;
    NoSignInAmongPageGets(rest);
  }

  lemma {:induction false} NoSignInAmongPageGets(calls: seq<Call>)
    requires forall i :: 0 <= i < |calls| ==> calls[i] == ListsPageGet
    ensures CountSignIns(calls) == 0
    decreases |calls|
  {
    if |calls| > 0 {
      NoSignInAmongPageGets(calls[1..]);
    }
  }
}

=== FILE: wrappers.dfy ===
/** Optional values and results, standing in for C# nullable references and exceptions. */
module Wrappers {

  /** A value that may be absent; `None` plays the part of a C# `null`. */
  datatype Option<+T> = None | Some(value: T) {

    /** The value, or `default` when absent (C#'s `??`). */
    function GetOr(default: T): T {
      match this
      case Some(v) => v
      case None => default
    }
  }

  /** The outcome of an operation that either produces a value or throws. */
  datatype Result<+T, +E> = Ok(value: T) | Err(error: E)
}
